=== FILE: README.md ===
# Shopping list store, modelled in Dafny

This project models the persistence and view-model core of an Android
shopping-list application. Users create categories, add items with a
quantity to the category they are viewing, mark categories for sharing, and
export the marked categories as plain text.

The model is one pure state machine. Its parts, leaves first:

- `Tables` (`tables.dfy`) is a table with an integer primary key. It is held
  as the sequence of its rows in ascending key order, which is the order
  SQLite scans a rowid table when a query has no `ORDER BY`. It provides:
  - insert-or-replace, update-by-key, delete-by-key and filtered selection;
  - SQLite's `AUTOINCREMENT` key choice.
- `ShoppingEntities` (`entities.dfy`) holds the two records, `ShoppingItem`
  and `Category`, and the defaults of their constructors. An `id` of 0 means
  the store has not assigned one yet.
- `ShoppingDao` (`dao.dfy`) is the database `Db`: both tables plus each
  table's `AUTOINCREMENT` high-water mark. The data-access object's queries
  and mutations are pure functions `Db -> Db`. `Valid` is the primary-key
  invariant that every operation preserves:
  - ids ascend, so each id occurs at most once;
  - no row has id 0;
  - no id exceeds its table's high-water mark.
- `ShoppingRepository` (`repository.dfy`) holds the repository's forwarding
  functions. They are `GetItemsByCategory`, `AllCategories`, `InsertItem`,
  `InsertCategory`, `UpdateItem`, `UpdateCategory` and `DeleteItem`. Each
  has the DAO function as its body, so its state effect is the DAO's. The
  module also holds the two-step cascading `DeleteCategory` and the
  no-orphans predicate.
- `ShoppingViewModel` (`viewmodel.dfy`) covers the view model:
  - the selected category id, modelled as `Option<int>`, with `-1` as the
    deselect sentinel;
  - the derived list of items in the selected category;
  - the commands `addItem`, `addCategory` and `toggleCategorySelection`;
  - the share export. It is computed over a snapshot of the categories
    table, and each category's items are read from the database at call time.
  - `updateItem`, `deleteItem` and `deleteCategory` only forward to the
    repository. They are modelled as functions whose bodies are the
    repository calls.
- `Decimal` (`decimal.dfy`) renders an `Int` in a string template. It comes
  with a reader that inverts it.

Room binds an auto-generated key of 0 as `NULL`. SQLite's `AUTOINCREMENT`
then picks one more than both the largest id the table has ever held and the
largest id it holds now. `Tables.NextKey` models this choice. Because of it,
the model proves that generated ids are never reused, even after rows are
deleted.

The model follows the code as written, including where a stricter design
would validate or enforce more:
- No operation rejects a blank name, a non-positive quantity or an unknown
  category id.
- Deleting a category is two separate statements, with no transaction.
  The first statement removes the category's items. The second removes the
  category row.
- Nothing enforces that every item's category exists. `NoOrphans` states
  this property. The model proves which operations keep it, and shows that
  adding an item under an unknown category id breaks it.

## Model

| member | source | states |
|---|---|---|
| ShoppingEntities.NewItem | app/src/main/java/com/example/shopping_list_application/ShoppingItem.kt:7-13 | a new item has no id yet (0), is unchecked, and keeps the given name, category and quantity; the quantity defaults to 1 |
| ShoppingEntities.NewCategory | app/src/main/java/com/example/shopping_list_application/ShoppingItem.kt:16-20 | a new category has no id yet (0), is unmarked, and keeps the given name |
| ShoppingDao.StoredItem | app/src/main/java/com/example/shopping_list_application/ShoppingItem.kt:8 | an item with an id is stored as given; an item with id 0 is stored with only its id changed, to one above the high-water mark and above every stored item id |
| ShoppingDao.StoredCategory | app/src/main/java/com/example/shopping_list_application/ShoppingItem.kt:17 | the same rule for categories: an explicit id is kept, id 0 becomes a fresh id above the high-water mark and every stored category id |
| ShoppingDao.NewRecordsStoredWithDefaults | app/src/main/java/com/example/shopping_list_application/ShoppingItem.kt:6-20 | an item built with defaults is stored unchecked, with quantity 1, under a generated id; a category built with defaults is stored unmarked under a generated id; both go after every existing row |
| Tables.NextKey | app/src/main/java/com/example/shopping_list_application/ShoppingItem.kt:8 | a generated key is positive, above the high-water mark, and above every key in the table, so no existing row holds it |
| Tables.Insert | app/src/main/java/com/example/shopping_list_application/ShoppingDao.kt:14-18 | insert-or-replace: the result holds the new row plus exactly the old rows with another key; keys stay unique and ascending; the length grows only when the key was new |
| Tables.Update | app/src/main/java/com/example/shopping_list_application/ShoppingDao.kt:20-24 | update overwrites only the row with the same key, in place; keys and length are unchanged; with no such row the table is unchanged |
| Tables.UpdateIsReplace | app/src/main/java/com/example/shopping_list_application/ShoppingDao.kt:14-24 | when the key is present, update and insert-or-replace give the same table |
| Tables.Select | app/src/main/java/com/example/shopping_list_application/ShoppingDao.kt:8-9 | a filtered query returns exactly the rows satisfying the filter, and is empty exactly when no row does |
| Tables.Remove | app/src/main/java/com/example/shopping_list_application/ShoppingDao.kt:26-30 | delete-by-key removes exactly the row with that key, if any; all other rows remain, in order |
| Tables.AscendingUnique | app/src/main/java/com/example/shopping_list_application/ShoppingItem.kt:8 | two tables in key order that hold the same rows are equal, so a table's rows determine its scan order |
| ShoppingDao.EmptyValid | app/src/main/java/com/example/shopping_list_application/ShoppingItem.kt:8 | a new database satisfies the primary-key invariant |
| ShoppingDao.GetItemsByCategory | app/src/main/java/com/example/shopping_list_application/ShoppingDao.kt:8-9 | returns exactly the items with the given category id, with no id twice; the result is empty exactly when no item has that category |
| ShoppingDao.GetAllCategories | app/src/main/java/com/example/shopping_list_application/ShoppingDao.kt:11-12 | returns exactly the stored categories, each id once, in ascending id order |
| ShoppingDao.InsertedCategoryReadBack | app/src/main/java/com/example/shopping_list_application/ShoppingDao.kt:11-18 | after inserting a new category "Snacks", the categories query returns it, unmarked, under the generated id |
| ShoppingDao.InsertItem | app/src/main/java/com/example/shopping_list_application/ShoppingDao.kt:14-15 | an item with an id replaces any row with that id and leaves other rows; an item with id 0 is appended under a fresh id above every earlier id; the categories table is unchanged; validity is kept |
| ShoppingDao.InsertCategory | app/src/main/java/com/example/shopping_list_application/ShoppingDao.kt:17-18 | the same upsert and fresh-id contract on the categories table; the items table is unchanged |
| ShoppingDao.UpdateItem | app/src/main/java/com/example/shopping_list_application/ShoppingDao.kt:20-21 | replaces the item with the same id and no other row; if no item has that id, the database is unchanged |
| ShoppingDao.UpdateCategory | app/src/main/java/com/example/shopping_list_application/ShoppingDao.kt:23-24 | replaces the category with the same id and no other row; if no category has that id, the database is unchanged |
| ShoppingDao.DeleteItem | app/src/main/java/com/example/shopping_list_application/ShoppingDao.kt:26-27 | removes only the item whose id matches the argument's id; every other row of both tables is kept |
| ShoppingDao.DeleteCategory | app/src/main/java/com/example/shopping_list_application/ShoppingDao.kt:29-30 | removes only the category row with the argument's id; the items table is untouched |
| ShoppingDao.DeleteItemsByCategory | app/src/main/java/com/example/shopping_list_application/ShoppingDao.kt:32-33 | removes exactly the items of the category; items of other categories and the categories table are kept |
| ShoppingDao.DeleteItemsByCategoryIdempotent | app/src/main/java/com/example/shopping_list_application/ShoppingDao.kt:32-33 | deleting a category's items twice gives the same state as deleting them once |
| ShoppingDao.QueryAndDeletePartitionItems | app/src/main/java/com/example/shopping_list_application/ShoppingDao.kt:8-33 | a category's query result and the items its bulk delete keeps together make up the whole items table |
| ShoppingDao.Run | app/src/main/java/com/example/shopping_list_application/ShoppingDao.kt:14-33 | any run of DAO statements keeps the database valid and never lowers a high-water mark |
| ShoppingDao.GeneratedIdsNeverReused | app/src/main/java/com/example/shopping_list_application/ShoppingItem.kt:8-19 | after any run of statements, including deletions, a generated id is above every id the table held before the run |
| ShoppingRepository.GetItemsByCategory | app/src/main/java/com/example/shopping_list_application/ShoppingRepository.kt:6 | forwards to the DAO query, so every returned item has the given category |
| ShoppingRepository.AllCategories | app/src/main/java/com/example/shopping_list_application/ShoppingRepository.kt:7 | returns exactly the stored categories, in ascending id order, so the export's section order is the table order |
| ShoppingRepository.InsertItem | app/src/main/java/com/example/shopping_list_application/ShoppingRepository.kt:9 | has the DAO insert's effect, leaves the categories table alone, and keeps validity |
| ShoppingRepository.InsertCategory | app/src/main/java/com/example/shopping_list_application/ShoppingRepository.kt:10 | has the DAO insert's effect, leaves the items table alone, and keeps validity |
| ShoppingRepository.UpdateItem | app/src/main/java/com/example/shopping_list_application/ShoppingRepository.kt:11 | has the DAO update's effect: the number of items and the categories table are unchanged; validity is kept |
| ShoppingRepository.UpdateCategory | app/src/main/java/com/example/shopping_list_application/ShoppingRepository.kt:12 | has the DAO update's effect: the number of categories and the items table are unchanged; validity is kept |
| ShoppingRepository.DeleteItem | app/src/main/java/com/example/shopping_list_application/ShoppingRepository.kt:13 | has the DAO delete's effect: no item with the argument's id remains, the categories table is unchanged; validity is kept |
| ShoppingRepository.CascadeMidpoint | app/src/main/java/com/example/shopping_list_application/ShoppingRepository.kt:15 | after the first statement of the cascade, the items are exactly those of other categories and the categories table is unchanged |
| ShoppingRepository.DeleteCategory | app/src/main/java/com/example/shopping_list_application/ShoppingRepository.kt:14-17 | the cascade leaves exactly the items of other categories and the category rows with other ids; the high-water marks are unchanged and validity is kept |
| ShoppingRepository.DeleteCategoryLeavesNoTrace | app/src/main/java/com/example/shopping_list_application/ShoppingRepository.kt:14-17 | after the cascade, the category's item query is empty and no category row has its id |
| ShoppingRepository.CascadeMidpointHasNoItems | app/src/main/java/com/example/shopping_list_application/ShoppingRepository.kt:15-16 | between the two statements, the categories table is unchanged, the category row is still present, and the category already has no items |
| ShoppingRepository.DeleteCategoryKeepsNoOrphans | app/src/main/java/com/example/shopping_list_application/ShoppingRepository.kt:14-17 | if every item's category exists before the cascade, it still exists after |
| ShoppingRepository.CategoryRowDeleteAloneOrphans | app/src/main/java/com/example/shopping_list_application/ShoppingDao.kt:29-30 | without the first statement, deleting the category row alone can leave an orphaned item |
| ShoppingRepository.DeleteCategoryIdempotent | app/src/main/java/com/example/shopping_list_application/ShoppingRepository.kt:14-17 | deleting the same category twice gives the same state as deleting it once |
| ShoppingRepository.DeleteCategoryRetryAfterMidpoint | app/src/main/java/com/example/shopping_list_application/ShoppingRepository.kt:14-17 | if the cascade stops after its first statement, re-issuing it gives the same final state as an uninterrupted delete |
| ShoppingViewModel.Init | app/src/main/java/com/example/shopping_list_application/ShoppingViewModel.kt:12 | the selection starts unset |
| ShoppingViewModel.SelectCategory | app/src/main/java/com/example/shopping_list_application/ShoppingViewModel.kt:26-28 | selecting leaves the database alone; the selection becomes unset or the given id, and never the sentinel -1 |
| ShoppingViewModel.SelectCategoryCases | app/src/main/java/com/example/shopping_list_application/ShoppingViewModel.kt:27 | -1 clears the selection; the already-selected id clears it; any other id becomes the selection |
| ShoppingViewModel.SelectCategoryTwice | app/src/main/java/com/example/shopping_list_application/ShoppingViewModel.kt:27 | selecting the same id twice returns to the start if that id was selected, and otherwise ends unset |
| ShoppingViewModel.ItemsInSelectedCategory | app/src/main/java/com/example/shopping_list_application/ShoppingViewModel.kt:21-23 | empty when nothing is selected; otherwise exactly the items of the selected category, in ascending id order |
| ShoppingViewModel.SwitchSelectionShowsNewCategory | app/src/main/java/com/example/shopping_list_application/ShoppingViewModel.kt:21-28 | after switching to another category, the derived list is that category's query result, with no item of the previous category |
| ShoppingViewModel.AddItem | app/src/main/java/com/example/shopping_list_application/ShoppingViewModel.kt:30-34 | appends an unchecked item with the given name, category and quantity under a fresh id above every earlier id; categories and selection are unchanged |
| ShoppingViewModel.AddCategory | app/src/main/java/com/example/shopping_list_application/ShoppingViewModel.kt:36-40 | appends an unmarked category with the given name under a fresh id; items and selection are unchanged |
| ShoppingViewModel.UpdateItem | app/src/main/java/com/example/shopping_list_application/ShoppingViewModel.kt:42-46 | the database changes as the repository update says; the selection is unchanged |
| ShoppingViewModel.DeleteItem | app/src/main/java/com/example/shopping_list_application/ShoppingViewModel.kt:48-52 | the database changes as the repository delete says, so no item with that id remains; the selection is unchanged |
| ShoppingViewModel.DeleteCategory | app/src/main/java/com/example/shopping_list_application/ShoppingViewModel.kt:54-58 | the database changes as the cascading delete says; the selection is not cleared, so a deleted selected category then shows an empty list |
| ShoppingViewModel.ToggleCategorySelection | app/src/main/java/com/example/shopping_list_application/ShoppingViewModel.kt:60-64 | the stored row with the category's id becomes the argument with its mark flipped; no other row changes; a category no longer stored is not recreated |
| ShoppingViewModel.ToggleTwiceRestores | app/src/main/java/com/example/shopping_list_application/ShoppingViewModel.kt:60-64 | toggling a stored category, then toggling its new stored form, restores the original state |
| ShoppingViewModel.ToggleStaleSnapshotTwice | app/src/main/java/com/example/shopping_list_application/ShoppingViewModel.kt:60-64 | toggling twice from the same stale argument writes the same row twice; the second toggle changes nothing |
| ShoppingViewModel.CommandsKeepNoOrphans | app/src/main/java/com/example/shopping_list_application/ShoppingViewModel.kt:30-63 | adding an item to an existing category, adding a category, or toggling one keeps every item's category present |
| ShoppingViewModel.DanglingItemIsStoredButNeverListed | app/src/main/java/com/example/shopping_list_application/ShoppingViewModel.kt:30-34 | an item added under an unknown category id is stored, so an orphan exists; no existing category's query lists it |
| ShoppingViewModel.ItemLine | app/src/main/java/com/example/shopping_list_application/ShoppingViewModel.kt:73 | an item line is "- ", the name and " (Quantity: ", then the quantity's canonical decimal text (`Decimal.IntToString`), which reads back as the quantity, then ")" and a line break |
| ShoppingViewModel.ItemLines | app/src/main/java/com/example/shopping_list_application/ShoppingViewModel.kt:72-74 | the item lines are empty exactly when there are no items |
| ShoppingViewModel.ItemLinesSingle | app/src/main/java/com/example/shopping_list_application/ShoppingViewModel.kt:72-74 | one item contributes exactly its own line |
| ShoppingViewModel.ItemLinesAppend | app/src/main/java/com/example/shopping_list_application/ShoppingViewModel.kt:72-74 | the lines of a list are its items' lines in list order: two lists one after the other give the first's lines then the second's |
| ShoppingViewModel.Section | app/src/main/java/com/example/shopping_list_application/ShoppingViewModel.kt:70-75 | a section is the line "Category: <name>", then the lines of exactly the items the category query returns, then a blank line |
| ShoppingViewModel.Contribution | app/src/main/java/com/example/shopping_list_application/ShoppingViewModel.kt:67-75 | an unmarked category adds nothing; a marked category adds exactly its section |
| ShoppingViewModel.ShareSelectedCategories | app/src/main/java/com/example/shopping_list_application/ShoppingViewModel.kt:66-78 | the export is empty exactly when no category in the snapshot is marked |
| ShoppingViewModel.ShareSingle | app/src/main/java/com/example/shopping_list_application/ShoppingViewModel.kt:69-76 | a one-category snapshot exports exactly that category's contribution; with the append law, the export is one contribution per category in snapshot order |
| ShoppingViewModel.ShareAppend | app/src/main/java/com/example/shopping_list_application/ShoppingViewModel.kt:69-76 | the export works category by category: two snapshots one after the other export as the concatenation of their exports |
| ShoppingViewModel.ShareOnlySelected | app/src/main/java/com/example/shopping_list_application/ShoppingViewModel.kt:67 | unmarked categories contribute nothing; the export equals the export of the marked categories alone |
| ShoppingViewModel.ShareExample | app/src/main/java/com/example/shopping_list_application/ShoppingViewModel.kt:66-78 | with "Produce" marked (Apple x3, Banana x2) and "Dairy" not marked (Milk x1), the export is exactly the Produce header, the two item lines, and a blank line |
| Decimal.IntToString | app/src/main/java/com/example/shopping_list_application/ShoppingViewModel.kt:73 | a quantity's text is non-empty; it starts with a minus sign exactly when the quantity is negative; the digits have no leading zero, except for "0" itself |
| Decimal.IntToStringRoundTrip | app/src/main/java/com/example/shopping_list_application/ShoppingViewModel.kt:73 | reading back the text of any integer gives that integer |
| Decimal.IntToStringInjective | app/src/main/java/com/example/shopping_list_application/ShoppingViewModel.kt:73 | different quantities render as different texts |

## Left out

- Flows, `StateFlow`, `stateIn`, `flatMapLatest`, coroutines and `viewModelScope.launch`. A query's live view is the query over the current state. Each launched mutation is one sequential step. Cancellation and interleaving of concurrent commands are not modelled.
- The share export takes its snapshot of the categories as a parameter. The source reads `allCategories.value`, which may lag behind the database; it is the empty list until the flow is first collected.
- `ShoppingDatabase.kt`: the database singleton, its locking and its destructive migration are framework configuration with no state logic.
- `MainActivity.kt`: the Compose screen and the share intent. Its input guards are not preconditions of the model, because the core operations do not check them. These guards are the non-blank names, the digits-only quantity, and the `-1` sent on a second click.
- Storage failures (I/O errors, a full disk) are not modelled. Every operation succeeds.
- Integer widths are not modelled: ids and quantities are unbounded integers. The source holds them in 32-bit Kotlin `Int` fields, over SQLite 64-bit INTEGER columns. The model does not cover SQLite's failure once a rowid reaches 2^63 - 1, or truncation of a large rowid read into an `Int`.
- The scan order of a query without `ORDER BY` is modelled as ascending id, which is SQLite's rowid order. SQL itself does not promise any order.
- The `OnConflictStrategy.ABORT` of `@Update` plays no part: an update writes back the same id, so it cannot conflict.

=== FILE: dao.dfy ===
/**
 * The data-access object: the queries and mutations the store runs against the
 * `shopping_items` and `categories` tables. The continuously-updated query
 * results are modelled as the result of the query over the current state.
 */
module ShoppingDao {
  import opened ShoppingEntities
  import Tables

  /**
   * The database: both tables, each in ascending id order, and for each table
   * the AUTOINCREMENT high-water mark (the largest id the table has ever held).
   */
  datatype Db = Db(
    items: seq<ShoppingItem>,
    categories: seq<Category>,
    itemSeq: int,
    categorySeq: int)

  /** A freshly created database. */
  const Empty: Db := Db([], [], 0, 0)

  /**
   * The integrity of the store: `id` is the primary key of each table (so it
   * occurs at most once), no stored row carries the unassigned id, and no id
   * exceeds its table's high-water mark.
   */
  predicate Valid(db: Db)
  {
    && Tables.Ascending(db.items, ItemKey)
    && Tables.Ascending(db.categories, CategoryKey)
    && (forall x :: x in db.items ==> x.id != Unassigned && x.id <= db.itemSeq)
    && (forall c :: c in db.categories ==> c.id != Unassigned && c.id <= db.categorySeq)
  }

  /** Some item row has this id. */
  predicate HasItem(db: Db, id: int)
  {
    Tables.HasKey(db.items, id, ItemKey)
  }

  /** Some category row has this id. */
  predicate HasCategory(db: Db, id: int)
  {
    Tables.HasKey(db.categories, id, CategoryKey)
  }

  /** SELECT * FROM shopping_items WHERE categoryId = c */
  function GetItemsByCategory(db: Db, c: int): (r: seq<ShoppingItem>)
    ensures forall x :: x in r <==> x in db.items && x.categoryId == c
    ensures r == [] <==> forall x :: x in db.items ==> x.categoryId != c
    ensures Valid(db) ==> Tables.Ascending(r, ItemKey)
  {
    var p := (x: ShoppingItem) => x.categoryId == c;
    assert Valid(db) ==> Tables.Ascending(Tables.Select(db.items, p), ItemKey) by {
      if Valid(db) { Tables.SelectAscending(db.items, p, ItemKey); }
    }
    Tables.Select(db.items, p)
  }

  /** SELECT * FROM categories */
  function GetAllCategories(db: Db): (r: seq<Category>)
    requires Valid(db)
    ensures forall c :: c in r <==> c in db.categories
    ensures forall i, j :: 0 <= i < j < |r| ==> r[i].id < r[j].id
  {
    db.categories
  }

  /**
   * The item row actually written: the store binds an unassigned id as NULL,
   * so SQLite generates the next AUTOINCREMENT id for it.
   */
  function StoredItem(db: Db, item: ShoppingItem): (row: ShoppingItem)
    requires Valid(db)
    ensures item.id != Unassigned ==> row == item
    ensures item.id == Unassigned ==>
              && row == item.(id := row.id)
              && row.id > db.itemSeq
              && forall x :: x in db.items ==> x.id < row.id
  {
    if item.id == Unassigned then item.(id := Tables.NextKey(db.itemSeq, db.items, ItemKey)) else item
  }

  /** The category row actually written, under the same rule as items. */
  function StoredCategory(db: Db, category: Category): (row: Category)
    requires Valid(db)
    ensures category.id != Unassigned ==> row == category
    ensures category.id == Unassigned ==>
              && row == category.(id := row.id)
              && row.id > db.categorySeq
              && forall c :: c in db.categories ==> c.id < row.id
  {
    if category.id == Unassigned then category.(id := Tables.NextKey(db.categorySeq, db.categories, CategoryKey)) else category
  }

  /** INSERT OR REPLACE INTO shopping_items */
  function InsertItem(db: Db, item: ShoppingItem): (r: Db)
    requires Valid(db)
    ensures Valid(r)
    ensures r.categories == db.categories && r.categorySeq == db.categorySeq
    ensures r.itemSeq >= db.itemSeq
    ensures item.id != Unassigned ==>
              forall x :: x in r.items <==> x == item || (x in db.items && x.id != item.id)
    ensures item.id == Unassigned ==>
              && r.itemSeq > db.itemSeq
              && (forall x :: x in db.items ==> x.id < r.itemSeq)
              && r.items == db.items + [item.(id := r.itemSeq)]
  {
    var row := StoredItem(db, item);
    assert item.id == Unassigned ==> Tables.Insert(db.items, row, ItemKey) == db.items + [row] by {
      if item.id == Unassigned { Tables.InsertAbove(db.items, row, ItemKey); }
    }
    db.(items := Tables.Insert(db.items, row, ItemKey),
        itemSeq := if row.id > db.itemSeq then row.id else db.itemSeq)
  }

  /** INSERT OR REPLACE INTO categories */
  function InsertCategory(db: Db, category: Category): (r: Db)
    requires Valid(db)
    ensures Valid(r)
    ensures r.items == db.items && r.itemSeq == db.itemSeq
    ensures r.categorySeq >= db.categorySeq
    ensures category.id != Unassigned ==>
              forall c :: c in r.categories <==> c == category || (c in db.categories && c.id != category.id)
    ensures category.id == Unassigned ==>
              && r.categorySeq > db.categorySeq
              && (forall c :: c in db.categories ==> c.id < r.categorySeq)
              && r.categories == db.categories + [category.(id := r.categorySeq)]
  {
    var row := StoredCategory(db, category);
    assert category.id == Unassigned ==> Tables.Insert(db.categories, row, CategoryKey) == db.categories + [row] by {
      if category.id == Unassigned { Tables.InsertAbove(db.categories, row, CategoryKey); }
    }
    db.(categories := Tables.Insert(db.categories, row, CategoryKey),
        categorySeq := if row.id > db.categorySeq then row.id else db.categorySeq)
  }

  /** UPDATE shopping_items ... WHERE id = item.id */
  function UpdateItem(db: Db, item: ShoppingItem): (r: Db)
    requires Valid(db)
    ensures Valid(r)
    ensures r.categories == db.categories && r.itemSeq == db.itemSeq && r.categorySeq == db.categorySeq
    ensures HasItem(db, item.id) ==>
              forall x :: x in r.items <==> x == item || (x in db.items && x.id != item.id)
    ensures !HasItem(db, item.id) ==> r == db
  {
    var items := Tables.Update(db.items, item, ItemKey);
    assert HasItem(db, item.id) ==> items == Tables.Insert(db.items, item, ItemKey) by {
      if HasItem(db, item.id) { Tables.UpdateIsReplace(db.items, item, ItemKey); }
    }
    db.(items := items)
  }

  /** UPDATE categories ... WHERE id = category.id */
  function UpdateCategory(db: Db, category: Category): (r: Db)
    requires Valid(db)
    ensures Valid(r)
    ensures r.items == db.items && r.itemSeq == db.itemSeq && r.categorySeq == db.categorySeq
    ensures HasCategory(db, category.id) ==>
              forall c :: c in r.categories <==> c == category || (c in db.categories && c.id != category.id)
    ensures !HasCategory(db, category.id) ==> r == db
  {
    var categories := Tables.Update(db.categories, category, CategoryKey);
    assert HasCategory(db, category.id) ==> categories == Tables.Insert(db.categories, category, CategoryKey) by {
      if HasCategory(db, category.id) { Tables.UpdateIsReplace(db.categories, category, CategoryKey); }
    }
    db.(categories := categories)
  }

  /** DELETE FROM shopping_items WHERE id = item.id; the other fields of the argument play no part. */
  function DeleteItem(db: Db, item: ShoppingItem): (r: Db)
    requires Valid(db)
    ensures Valid(r)
    ensures r.categories == db.categories && r.itemSeq == db.itemSeq && r.categorySeq == db.categorySeq
    ensures forall x :: x in r.items <==> x in db.items && x.id != item.id
    ensures |r.items| == if HasItem(db, item.id) then |db.items| - 1 else |db.items|
  {
    db.(items := Tables.Remove(db.items, item.id, ItemKey))
  }

  /** DELETE FROM categories WHERE id = category.id; items are left alone (no foreign key). */
  function DeleteCategory(db: Db, category: Category): (r: Db)
    requires Valid(db)
    ensures Valid(r)
    ensures r.items == db.items && r.itemSeq == db.itemSeq && r.categorySeq == db.categorySeq
    ensures forall c :: c in r.categories <==> c in db.categories && c.id != category.id
    ensures |r.categories| == if HasCategory(db, category.id) then |db.categories| - 1 else |db.categories|
  {
    db.(categories := Tables.Remove(db.categories, category.id, CategoryKey))
  }

  /** DELETE FROM shopping_items WHERE categoryId = c */
  function DeleteItemsByCategory(db: Db, c: int): (r: Db)
    requires Valid(db)
    ensures Valid(r)
    ensures r.categories == db.categories && r.itemSeq == db.itemSeq && r.categorySeq == db.categorySeq
    ensures forall x :: x in r.items <==> x in db.items && x.categoryId != c
  {
    var p := (x: ShoppingItem) => x.categoryId != c;
    Tables.SelectAscending(db.items, p, ItemKey);
    db.(items := Tables.Select(db.items, p))
  }

  /** One statement of the data-access object, for reasoning about runs of them. */
  datatype Statement =
    | InsertItemStmt(item: ShoppingItem)
    | InsertCategoryStmt(category: Category)
    | UpdateItemStmt(item: ShoppingItem)
    | UpdateCategoryStmt(category: Category)
    | DeleteItemStmt(item: ShoppingItem)
    | DeleteCategoryStmt(category: Category)
    | DeleteItemsByCategoryStmt(categoryId: int)

  function Execute(db: Db, s: Statement): Db
    requires Valid(db)
  {
    match s
    case InsertItemStmt(item) => InsertItem(db, item)
    case InsertCategoryStmt(category) => InsertCategory(db, category)
    case UpdateItemStmt(item) => UpdateItem(db, item)
    case UpdateCategoryStmt(category) => UpdateCategory(db, category)
    case DeleteItemStmt(item) => DeleteItem(db, item)
    case DeleteCategoryStmt(category) => DeleteCategory(db, category)
    case DeleteItemsByCategoryStmt(c) => DeleteItemsByCategory(db, c)
  }

  /**
   * Executing statements one after another keeps the store valid and never
   * lowers either high-water mark.
   */
  function Run(db: Db, stmts: seq<Statement>): (r: Db)
    requires Valid(db)
    ensures Valid(r)
    ensures r.itemSeq >= db.itemSeq && r.categorySeq >= db.categorySeq
    decreases |stmts|
  {
    if |stmts| == 0 then db else Run(Execute(db, stmts[0]), stmts[1..])
  }

  /**
   * Generated ids are never reused: after any run of statements, even one that
   * deleted rows, an item or category inserted without an id gets an id above
   * every id the table held before the run.
   */
  lemma GeneratedIdsNeverReused(db: Db, stmts: seq<Statement>, item: ShoppingItem, category: Category)
    requires Valid(db)
    requires item.id == Unassigned && category.id == Unassigned
    ensures forall x :: x in db.items ==> x.id < InsertItem(Run(db, stmts), item).itemSeq
    ensures forall c :: c in db.categories ==> c.id < InsertCategory(Run(db, stmts), category).categorySeq
  {
  }

  /**
   * Records built with their defaults are stored under a fresh id, unchecked
   * with quantity 1 (an item) or unmarked (a category), after every existing row.
   */
  lemma NewRecordsStoredWithDefaults(db: Db, name: string, categoryId: int)
    requires Valid(db)
    ensures var r := InsertItem(db, NewItem(name, categoryId));
            r.items == db.items + [ShoppingItem(r.itemSeq, name, false, categoryId, 1)]
    ensures var r := InsertCategory(db, NewCategory(name));
            r.categories == db.categories + [Category(r.categorySeq, name, false)]
  {
  }

  /**
   * Read-back of a new category: after adding "Snacks" with its defaults, the
   * categories query holds it under its generated id, unmarked.
   */
  lemma InsertedCategoryReadBack(db: Db)
    requires Valid(db)
    ensures var r := InsertCategory(db, NewCategory("Snacks"));
            && r.categorySeq != Unassigned
            && Category(r.categorySeq, "Snacks", false) in GetAllCategories(r)
  {
    var r := InsertCategory(db, NewCategory("Snacks"));
    assert r.categories[|db.categories|] == Category(r.categorySeq, "Snacks", false);
  }

  /** The empty database satisfies the integrity invariant. */
  lemma EmptyValid()
    ensures Valid(Empty)
  {
  }

  /** Deleting a category's items a second time changes nothing. */
  lemma DeleteItemsByCategoryIdempotent(db: Db, c: int)
    requires Valid(db)
    ensures DeleteItemsByCategory(DeleteItemsByCategory(db, c), c) == DeleteItemsByCategory(db, c)
  {
    var once := DeleteItemsByCategory(db, c);
    Tables.AscendingUnique(DeleteItemsByCategory(once, c).items, once.items, ItemKey);
  }

  /**
   * The query and the bulk delete split the items table: every item is either
   * returned by the query for c or kept by the delete for c, never both.
   */
  lemma QueryAndDeletePartitionItems(db: Db, c: int)
    requires Valid(db)
    ensures |GetItemsByCategory(db, c)| + |DeleteItemsByCategory(db, c).items| == |db.items|
  {
    Tables.SelectComplement(db.items, (x: ShoppingItem) => x.categoryId == c, (x: ShoppingItem) => x.categoryId != c);
  }
}

=== FILE: decimal.dfy ===
/**
 * Decimal text of an integer, as a Kotlin string template renders an `Int`:
 * the digits, most significant first, with no leading zero, preceded by a
 * minus sign when the value is negative. A reader for the same notation is the
 * rendering's inverse.
 */
module Decimal {
  import opened Wrappers

  predicate IsDigit(ch: char)
  {
    '0' <= ch <= '9'
  }

  predicate AllDigits(s: string)
  {
    forall i :: 0 <= i < |s| ==> IsDigit(s[i])
  }

  function DigitChar(d: nat): (ch: char)
    requires d < 10
    ensures IsDigit(ch)
  {
    (d + '0' as int) as char
  }

  function DigitValue(ch: char): (d: nat)
    requires IsDigit(ch)
    ensures d < 10
  {
    ch as int - '0' as int
  }

  /** The decimal digits of n. */
  function NatToString(n: nat): (s: string)
    ensures |s| >= 1 && AllDigits(s)
    ensures s[0] == '0' ==> n == 0 && |s| == 1
  {
    if n < 10 then [DigitChar(n)]
    else NatToString(n / 10) + [DigitChar(n % 10)]
  }

  /** The text of an integer: a minus sign for a negative value, then the digits of its magnitude. */
  function IntToString(i: int): (s: string)
    ensures |s| >= 1
    ensures s[0] == '-' <==> i < 0
    ensures i >= 0 ==> AllDigits(s) && (s[0] == '0' ==> s == "0")
    ensures i < 0 ==> |s| >= 2 && AllDigits(s[1..]) && s[1] != '0'
  {
    if i < 0 then "-" + NatToString(-i) else NatToString(i)
  }

  /** The value of a string of digits. */
  function DigitsValue(s: string): nat
    requires AllDigits(s)
  {
    if |s| == 0 then 0 else 10 * DigitsValue(s[..|s| - 1]) + DigitValue(s[|s| - 1])
  }

  /** Reads an optional minus sign followed by at least one digit; anything else is rejected. */
  function ParseInt(s: string): (r: Option<int>)
    ensures r.Some? ==> |s| >= 1
  {
    if |s| >= 2 && s[0] == '-' && AllDigits(s[1..]) then
      var magnitude: int := DigitsValue(s[1..]);
      Some(-magnitude)
    else if |s| >= 1 && AllDigits(s) then Some(DigitsValue(s))
    else None
  }

  lemma {:induction false} NatToStringValue(n: nat)
    ensures DigitsValue(NatToString(n)) == n
  {
    if n >= 10 {
      NatToStringValue(n / 10);
      var s := NatToString(n);
      assert s[..|s| - 1] == NatToString(n / 10);
    }
  }

  /** Reading back the text of any integer gives the integer. */
  lemma IntToStringRoundTrip(i: int)
    ensures ParseInt(IntToString(i)) == Some(i)
  {
    if i < 0 {
      var digits := NatToString(-i);
      NatToStringValue(-i);
      var s := "-" + digits;
      assert s[1..] == digits;
      var magnitude: int := DigitsValue(digits);
      assert ParseInt(s) == Some(-magnitude);
    } else {
      NatToStringValue(i);
      var s := NatToString(i);
      assert !(|s| >= 2 && s[0] == '-');
    }
  }

  /** Different integers have different texts. */
  lemma IntToStringInjective(i: int, j: int)
    requires IntToString(i) == IntToString(j)
    ensures i == j
  {
    IntToStringRoundTrip(i);
    IntToStringRoundTrip(j);
  }
}

=== FILE: entities.dfy ===
/**
 * The two persisted record types: a shopping item (table `shopping_items`) and
 * a category (table `categories`). Both have an auto-generated integer primary
 * key `id`; the value 0 means "not yet assigned".
 */
module ShoppingEntities {

  datatype ShoppingItem = ShoppingItem(
    id: int,
    name: string,
    isChecked: bool,
    categoryId: int,
    quantity: int)

  datatype Category = Category(id: int, name: string, isSelected: bool)

  /** The id a record carries before the store has assigned one. */
  const Unassigned: int := 0

  /** The quantity an item gets when none is given. */
  const DefaultQuantity: int := 1

  function ItemKey(it: ShoppingItem): int { it.id }

  function CategoryKey(c: Category): int { c.id }

  /** A new item as the constructor builds it when only name, category and perhaps quantity are given. */
  function NewItem(name: string, categoryId: int, quantity: int := DefaultQuantity): (it: ShoppingItem)
    ensures it.id == Unassigned && !it.isChecked
    ensures it.name == name && it.categoryId == categoryId && it.quantity == quantity
  {
    ShoppingItem(id := Unassigned, name := name, isChecked := false, categoryId := categoryId, quantity := quantity)
  }

  /** A new category as the constructor builds it when only the name is given. */
  function NewCategory(name: string): (c: Category)
    ensures c.id == Unassigned && !c.isSelected && c.name == name
  {
    Category(id := Unassigned, name := name, isSelected := false)
  }
}

=== FILE: repository.dfy ===
/**
 * The repository: a façade over the data-access object. Every operation but
 * one forwards its call unchanged; deleting a category first deletes the
 * category's items and then the category row, as two separate statements.
 */
module ShoppingRepository {
  import opened ShoppingEntities
  import Dao = ShoppingDao
  import Tables

  // Every operation below except DeleteCategory forwards to the data-access object,
  // so its effect on the database is the data-access object's.

  function GetItemsByCategory(db: Dao.Db, categoryId: int): (r: seq<ShoppingItem>)
    ensures r == Dao.GetItemsByCategory(db, categoryId)
    ensures forall x :: x in r ==> x.categoryId == categoryId
  {
    Dao.GetItemsByCategory(db, categoryId)
  }

  function AllCategories(db: Dao.Db): (r: seq<Category>)
    requires Dao.Valid(db)
    ensures forall c :: c in r <==> c in db.categories
    ensures Tables.Ascending(r, CategoryKey)
  {
    Dao.GetAllCategories(db)
  }

  function InsertItem(db: Dao.Db, item: ShoppingItem): (r: Dao.Db)
    requires Dao.Valid(db)
    ensures Dao.Valid(r)
    ensures r == Dao.InsertItem(db, item)
    ensures r.categories == db.categories
  {
    Dao.InsertItem(db, item)
  }

  function InsertCategory(db: Dao.Db, category: Category): (r: Dao.Db)
    requires Dao.Valid(db)
    ensures Dao.Valid(r)
    ensures r == Dao.InsertCategory(db, category)
    ensures r.items == db.items
  {
    Dao.InsertCategory(db, category)
  }

  function UpdateItem(db: Dao.Db, item: ShoppingItem): (r: Dao.Db)
    requires Dao.Valid(db)
    ensures Dao.Valid(r)
    ensures r == Dao.UpdateItem(db, item)
    ensures r.categories == db.categories && |r.items| == |db.items|
  {
    Dao.UpdateItem(db, item)
  }

  function UpdateCategory(db: Dao.Db, category: Category): (r: Dao.Db)
    requires Dao.Valid(db)
    ensures Dao.Valid(r)
    ensures r == Dao.UpdateCategory(db, category)
    ensures r.items == db.items && |r.categories| == |db.categories|
  {
    Dao.UpdateCategory(db, category)
  }

  function DeleteItem(db: Dao.Db, item: ShoppingItem): (r: Dao.Db)
    requires Dao.Valid(db)
    ensures Dao.Valid(r)
    ensures r == Dao.DeleteItem(db, item)
    ensures r.categories == db.categories && !Dao.HasItem(r, item.id)
  {
    Dao.DeleteItem(db, item)
  }

  /** The state between the two statements of the cascading delete: the items are gone, the category row is not. */
  function CascadeMidpoint(db: Dao.Db, category: Category): (r: Dao.Db)
    requires Dao.Valid(db)
    ensures Dao.Valid(r)
    ensures r.categories == db.categories
    ensures forall x :: x in r.items <==> x in db.items && x.categoryId != category.id
  {
    Dao.DeleteItemsByCategory(db, category.id)
  }

  /**
   * Cascading delete: no item of the category and no row with its id remain,
   * and every other row of both tables is kept.
   */
  function DeleteCategory(db: Dao.Db, category: Category): (r: Dao.Db)
    requires Dao.Valid(db)
    ensures Dao.Valid(r)
    ensures forall x :: x in r.items <==> x in db.items && x.categoryId != category.id
    ensures forall c :: c in r.categories <==> c in db.categories && c.id != category.id
    ensures r.itemSeq == db.itemSeq && r.categorySeq == db.categorySeq
  {
    Dao.DeleteCategory(CascadeMidpoint(db, category), category)
  }

  /** Every item refers to a category that exists. The schema declares no foreign key, so this is kept by the callers, if at all. */
  predicate NoOrphans(db: Dao.Db)
  {
    forall x :: x in db.items ==> Dao.HasCategory(db, x.categoryId)
  }

  /** After the cascade no item refers to the deleted category and the category row is gone. */
  lemma DeleteCategoryLeavesNoTrace(db: Dao.Db, category: Category)
    requires Dao.Valid(db)
    ensures Dao.GetItemsByCategory(DeleteCategory(db, category), category.id) == []
    ensures !Dao.HasCategory(DeleteCategory(db, category), category.id)
  {
  }

  /**
   * Between the two statements an observer sees the category still present
   * (if it was) but already without items; the category's row is unchanged.
   */
  lemma CascadeMidpointHasNoItems(db: Dao.Db, category: Category)
    requires Dao.Valid(db)
    ensures CascadeMidpoint(db, category).categories == db.categories
    ensures Dao.GetItemsByCategory(CascadeMidpoint(db, category), category.id) == []
    ensures Dao.HasCategory(db, category.id) ==> Dao.HasCategory(CascadeMidpoint(db, category), category.id)
  {
  }

  /** The cascade keeps the store free of orphans: deleting a category cannot strand an item. */
  lemma DeleteCategoryKeepsNoOrphans(db: Dao.Db, category: Category)
    requires Dao.Valid(db) && NoOrphans(db)
    ensures NoOrphans(DeleteCategory(db, category))
  {
  }

  /** Deleting the category row alone, without the first statement, can leave orphans behind. */
  lemma CategoryRowDeleteAloneOrphans()
    ensures exists db: Dao.Db, category: Category ::
              && Dao.Valid(db) && NoOrphans(db)
              && !NoOrphans(Dao.DeleteCategory(db, category))
  {
    var cat := Category(1, "Produce", false);
    var apple := ShoppingItem(1, "Apple", false, 1, 3);
    var db := Dao.Db([apple], [cat], 1, 1);
    assert Dao.HasCategory(db, 1) by { assert cat in db.categories; }
    var r := Dao.DeleteCategory(db, cat);
    assert apple in r.items;
    assert !Dao.HasCategory(r, 1);
  }

  /** Deleting the same category twice leaves the store as deleting it once. */
  lemma DeleteCategoryIdempotent(db: Dao.Db, category: Category)
    requires Dao.Valid(db)
    ensures DeleteCategory(DeleteCategory(db, category), category) == DeleteCategory(db, category)
  {
    var once := DeleteCategory(db, category);
    var twice := DeleteCategory(once, category);
    Tables.AscendingUnique(twice.items, once.items, ItemKey);
    Tables.AscendingUnique(twice.categories, once.categories, CategoryKey);
  }

  /**
   * If the cascade stops after its first statement, issuing the whole delete
   * again reaches the same final state as an uninterrupted delete.
   */
  lemma DeleteCategoryRetryAfterMidpoint(db: Dao.Db, category: Category)
    requires Dao.Valid(db)
    ensures DeleteCategory(CascadeMidpoint(db, category), category) == DeleteCategory(db, category)
  {
    var once := DeleteCategory(db, category);
    var retried := DeleteCategory(CascadeMidpoint(db, category), category);
    Tables.AscendingUnique(retried.items, once.items, ItemKey);
    Tables.AscendingUnique(retried.categories, once.categories, CategoryKey);
  }
}

=== FILE: tables.dfy ===
/**
 * A table with an integer primary key, kept as the sequence of its rows in
 * ascending key order: the order in which SQLite scans a rowid table when a
 * query has no ORDER BY. The key is passed as a function so that the shopping
 * item table and the category table share one definition.
 */
module Tables {
  /** Keys strictly increase along the table, so no key occurs twice. */
  predicate Ascending<T(==,!new)>(t: seq<T>, key: T -> int)
  {
    forall i, j :: 0 <= i < j < |t| ==> key(t[i]) < key(t[j])
  }

  /** Some row of the table has primary key k. */
  predicate HasKey<T(==,!new)>(t: seq<T>, k: int, key: T -> int)
  {
    exists x :: x in t && key(x) == k
  }

  /** The largest key in the table, or 0 for an empty table or one whose keys are all negative. */
  function MaxKey<T(==,!new)>(t: seq<T>, key: T -> int): (m: int)
    ensures m >= 0
    ensures forall x :: x in t ==> key(x) <= m
    ensures m == 0 || exists x :: x in t && key(x) == m
  {
    if |t| == 0 then 0
    else
      var rest := MaxKey(t[1..], key);
      assert forall x :: x in t ==> x == t[0] || x in t[1..];
      if key(t[0]) > rest then key(t[0]) else rest
  }

  /**
   * The key SQLite's AUTOINCREMENT gives a row inserted without one: one more
   * than both the high-water mark hw (the largest key ever used, kept in
   * sqlite_sequence) and the largest key now in the table.
   */
  function NextKey<T(==,!new)>(hw: int, t: seq<T>, key: T -> int): (k: int)
    ensures k > hw && k > 0
    ensures forall x :: x in t ==> key(x) < k
  {
    var m := MaxKey(t, key);
    (if hw > m then hw else m) + 1
  }

  /**
   * INSERT OR REPLACE: the row takes the place of the row with the same key,
   * if there is one, and is otherwise added at its key's position.
   */
  function Insert<T(==,!new)>(t: seq<T>, row: T, key: T -> int): (r: seq<T>)
    requires Ascending(t, key)
    ensures Ascending(r, key)
    ensures forall x :: x in r <==> x == row || (x in t && key(x) != key(row))
    ensures |r| == if HasKey(t, key(row), key) then |t| else |t| + 1
  {
    if |t| == 0 then [row]
    else if key(row) < key(t[0]) then
      assert !HasKey(t, key(row), key) by { KeysAbove(t, key(row), key); }
      [row] + t
    else if key(row) == key(t[0]) then
      assert !HasKey(t[1..], key(row), key) by { KeysAbove(t[1..], key(row), key); }
      assert forall x :: x in t ==> x == t[0] || x in t[1..];
      [row] + t[1..]
    else
      var rest := Insert(t[1..], row, key);
      assert forall x :: x in t ==> x == t[0] || x in t[1..];
      assert forall x :: x in rest ==> key(t[0]) < key(x) by {
        forall x | x in rest ensures key(t[0]) < key(x) {
          if x != row {
            var j :| 1 <= j < |t| && t[j] == x;
          }
        }
      }
      PrependAscending(t[0], rest, key);
      [t[0]] + rest
  }

  /**
   * UPDATE ... WHERE key = key(row): the row with the same key is overwritten
   * in place; the table is unchanged when no row has that key.
   */
  function Update<T(==,!new)>(t: seq<T>, row: T, key: T -> int): (r: seq<T>)
    requires Ascending(t, key)
    ensures Ascending(r, key)
    ensures |r| == |t|
    ensures forall i :: 0 <= i < |t| ==> key(r[i]) == key(t[i])
    ensures forall i :: 0 <= i < |t| ==> r[i] == if key(t[i]) == key(row) then row else t[i]
    ensures !HasKey(t, key(row), key) ==> r == t
  {
    if |t| == 0 then []
    else [if key(t[0]) == key(row) then row else t[0]] + Update(t[1..], row, key)
  }

  /** The rows that satisfy p, in table order (SELECT/DELETE ... WHERE p). */
  function Select<T(==,!new)>(t: seq<T>, p: T -> bool): (r: seq<T>)
    ensures forall x :: x in r <==> x in t && p(x)
    ensures r == [] <==> forall x :: x in t ==> !p(x)
    ensures |r| <= |t|
  {
    if |t| == 0 then []
    else
      assert forall x :: x in t ==> x == t[0] || x in t[1..];
      if p(t[0]) then [t[0]] + Select(t[1..], p) else Select(t[1..], p)
  }

  /** Selecting rows keeps their relative order, so an ascending table stays ascending. */
  lemma {:induction false} SelectAscending<T(!new)>(t: seq<T>, p: T -> bool, key: T -> int)
    requires Ascending(t, key)
    ensures Ascending(Select(t, p), key)
  {
    if |t| > 0 {
      var rest := Select(t[1..], p);
      SelectAscending(t[1..], p, key);
      if p(t[0]) {
        forall x | x in rest ensures key(t[0]) < key(x) {
          var j :| 1 <= j < |t| && t[j] == x;
        }
        PrependAscending(t[0], rest, key);
      }
    }
  }

  /** DELETE ... WHERE key = k. */
  function Remove<T(==,!new)>(t: seq<T>, k: int, key: T -> int): (r: seq<T>)
    requires Ascending(t, key)
    ensures Ascending(r, key)
    ensures forall x :: x in r <==> x in t && key(x) != k
    ensures |r| == if HasKey(t, k, key) then |t| - 1 else |t|
  {
    RemoveLength(t, k, key);
    SelectAscending(t, x => key(x) != k, key);
    Select(t, x => key(x) != k)
  }

  /** Every key of an ascending table lies above a bound its first key exceeds. */
  lemma KeysAbove<T(!new)>(t: seq<T>, k: int, key: T -> int)
    requires Ascending(t, key)
    requires |t| > 0 ==> k < key(t[0])
    ensures forall x :: x in t ==> k < key(x)
  {
  }

  /** A row whose key is below every key of an ascending table can head it. */
  lemma PrependAscending<T(!new)>(row: T, t: seq<T>, key: T -> int)
    requires Ascending(t, key)
    requires forall x :: x in t ==> key(row) < key(x)
    ensures Ascending([row] + t, key)
  {
  }

  lemma {:induction false} RemoveLength<T(!new)>(t: seq<T>, k: int, key: T -> int)
    requires Ascending(t, key)
    ensures |Select(t, x => key(x) != k)| == if HasKey(t, k, key) then |t| - 1 else |t|
  {
    if |t| > 0 {
      assert Ascending(t[1..], key);
      RemoveLength(t[1..], k, key);
      var p := x => key(x) != k;
      assert Select(t, p) == (if p(t[0]) then [t[0]] + Select(t[1..], p) else Select(t[1..], p));
      assert forall x :: x in t ==> x == t[0] || x in t[1..];
      if key(t[0]) == k {
        KeysAbove(t[1..], k, key);
      } else {
        assert HasKey(t, k, key) <==> HasKey(t[1..], k, key);
      }
    }
  }

  /**
   * Two ascending tables holding the same rows are the same table: the rows
   * of a table determine its scan order.
   */
  lemma {:induction false} AscendingUnique<T(!new)>(a: seq<T>, b: seq<T>, key: T -> int)
    requires Ascending(a, key) && Ascending(b, key)
    requires forall x :: x in a <==> x in b
    ensures a == b
  {
    if |b| > 0 { assert b[0] in a; }
    if |a| > 0 {
      assert a[0] in b;
      var j :| 0 <= j < |b| && b[j] == a[0];
      assert key(b[0]) <= key(a[0]);
      var i :| 0 <= i < |a| && a[i] == b[0];
      assert key(a[0]) <= key(b[0]);
      assert j == 0;
      forall x ensures x in a[1..] <==> x in b[1..] {
        if x in a[1..] {
          var i :| 1 <= i < |a| && a[i] == x;
          assert x in b;
          assert x != b[0];
        }
        if x in b[1..] {
          var j :| 1 <= j < |b| && b[j] == x;
          assert x in a;
          assert x != a[0];
        }
      }
      AscendingUnique(a[1..], b[1..], key);
      assert a == [a[0]] + a[1..];
      assert b == [b[0]] + b[1..];
    }
  }

  /** A row keyed above every existing key lands at the end of the table. */
  lemma InsertAbove<T(!new)>(t: seq<T>, row: T, key: T -> int)
    requires Ascending(t, key)
    requires forall x :: x in t ==> key(x) < key(row)
    ensures Insert(t, row, key) == t + [row]
  {
    var r := t + [row];
    forall i, j | 0 <= i < j < |r| ensures key(r[i]) < key(r[j]) {
      assert r[i] in t;
      if j < |t| { assert r[j] == t[j]; }
    }
    AscendingUnique(Insert(t, row, key), r, key);
  }

  /** When the key is present, an update is exactly an insert-or-replace. */
  lemma UpdateIsReplace<T(!new)>(t: seq<T>, row: T, key: T -> int)
    requires Ascending(t, key)
    requires HasKey(t, key(row), key)
    ensures Update(t, row, key) == Insert(t, row, key)
  {
    var u := Update(t, row, key);
    forall x ensures x in u <==> x == row || (x in t && key(x) != key(row)) {
      if x in u {
        var i :| 0 <= i < |u| && u[i] == x;
      }
      if x == row {
        var y :| y in t && key(y) == key(row);
        var i :| 0 <= i < |t| && t[i] == y;
        assert u[i] == row;
      } else if x in t && key(x) != key(row) {
        var i :| 0 <= i < |t| && t[i] == x;
        assert u[i] == x;
      }
    }
    AscendingUnique(u, Insert(t, row, key), key);
  }

  /** A predicate and its negation select complementary parts of the table. */
  lemma {:induction false} SelectComplement<T(!new)>(t: seq<T>, p: T -> bool, q: T -> bool)
    requires forall x :: q(x) == !p(x)
    ensures |Select(t, p)| + |Select(t, q)| == |t|
  {
    if |t| > 0 {
      SelectComplement(t[1..], p, q);
    }
  }
}

=== FILE: viewmodel.dfy ===
/**
 * The view model: the database it works on, the id of the category the user
 * is viewing (nullable, initially unset), the item list derived from that
 * selection, the commands the screen issues, and the plain-text export of
 * the categories marked for sharing. Each launched coroutine is modelled as
 * one sequential step on the database.
 */
module ShoppingViewModel {
  import opened Wrappers
  import opened ShoppingEntities
  import Dao = ShoppingDao
  import Repo = ShoppingRepository
  import Decimal
  import Tables

  /** The category id the screen sends to clear the selection. */
  const Deselect: int := -1

  datatype ViewModel = ViewModel(db: Dao.Db, selectedCategoryId: Option<int>)

  /** A view model just created over an opened database: nothing is selected. */
  function Init(db: Dao.Db): (vm: ViewModel)
    ensures vm.selectedCategoryId.None?
    ensures vm.db == db
  {
    ViewModel(db, None)
  }

  /**
   * Selecting the selected category again, or sending the sentinel, clears the
   * selection; any other id becomes the selection.
   */
  function SelectCategory(vm: ViewModel, categoryId: int): (r: ViewModel)
    ensures r.db == vm.db
    ensures r.selectedCategoryId == None || r.selectedCategoryId == Some(categoryId)
    ensures r.selectedCategoryId != Some(Deselect)
  {
    var next := if categoryId == Deselect || vm.selectedCategoryId == Some(categoryId) then None else Some(categoryId);
    vm.(selectedCategoryId := next)
  }

  /** The items of the selected category; none when nothing is selected. */
  function ItemsInSelectedCategory(vm: ViewModel): (r: seq<ShoppingItem>)
    ensures vm.selectedCategoryId.None? ==> r == []
    ensures vm.selectedCategoryId.Some? ==>
              forall x :: x in r <==> x in vm.db.items && x.categoryId == vm.selectedCategoryId.value
    ensures Dao.Valid(vm.db) ==> Tables.Ascending(r, ItemKey)
  {
    match vm.selectedCategoryId
    case None => []
    case Some(c) => Repo.GetItemsByCategory(vm.db, c)
  }

  /** Adds a new item: unchecked, with the given name, category and quantity, under a freshly generated id. */
  function AddItem(vm: ViewModel, name: string, categoryId: int, quantity: int): (r: ViewModel)
    requires Dao.Valid(vm.db)
    ensures Dao.Valid(r.db)
    ensures r.selectedCategoryId == vm.selectedCategoryId
    ensures r.db.categories == vm.db.categories
    ensures r.db.itemSeq > vm.db.itemSeq
    ensures forall x :: x in vm.db.items ==> x.id < r.db.itemSeq
    ensures r.db.items == vm.db.items + [ShoppingItem(r.db.itemSeq, name, false, categoryId, quantity)]
  {
    vm.(db := Repo.InsertItem(vm.db, NewItem(name, categoryId, quantity)))
  }

  /** Adds a new unselected category with the given name under a freshly generated id. */
  function AddCategory(vm: ViewModel, name: string): (r: ViewModel)
    requires Dao.Valid(vm.db)
    ensures Dao.Valid(r.db)
    ensures r.selectedCategoryId == vm.selectedCategoryId
    ensures r.db.items == vm.db.items
    ensures r.db.categorySeq > vm.db.categorySeq
    ensures forall c :: c in vm.db.categories ==> c.id < r.db.categorySeq
    ensures r.db.categories == vm.db.categories + [Category(r.db.categorySeq, name, false)]
  {
    vm.(db := Repo.InsertCategory(vm.db, NewCategory(name)))
  }

  /** Forwards an item update; the selection is unaffected. */
  function UpdateItem(vm: ViewModel, item: ShoppingItem): (r: ViewModel)
    requires Dao.Valid(vm.db)
    ensures r.db == Repo.UpdateItem(vm.db, item)
    ensures r.selectedCategoryId == vm.selectedCategoryId
  {
    vm.(db := Repo.UpdateItem(vm.db, item))
  }

  /** Forwards an item delete; the selection is unaffected. */
  function DeleteItem(vm: ViewModel, item: ShoppingItem): (r: ViewModel)
    requires Dao.Valid(vm.db)
    ensures r.db == Repo.DeleteItem(vm.db, item)
    ensures !Dao.HasItem(r.db, item.id)
    ensures r.selectedCategoryId == vm.selectedCategoryId
  {
    vm.(db := Repo.DeleteItem(vm.db, item))
  }

  /**
   * Forwards the cascading delete. The selection is not cleared: when the
   * deleted category was selected, it stays selected and its list is empty.
   */
  function DeleteCategory(vm: ViewModel, category: Category): (r: ViewModel)
    requires Dao.Valid(vm.db)
    ensures r.db == Repo.DeleteCategory(vm.db, category)
    ensures r.selectedCategoryId == vm.selectedCategoryId
    ensures vm.selectedCategoryId == Some(category.id) ==> ItemsInSelectedCategory(r) == []
  {
    vm.(db := Repo.DeleteCategory(vm.db, category))
  }

  /**
   * Writes back the given category with its share mark flipped. The row is
   * overwritten from the argument, so its name is the argument's as well; a
   * category no longer stored is not recreated.
   */
  function ToggleCategorySelection(vm: ViewModel, category: Category): (r: ViewModel)
    requires Dao.Valid(vm.db)
    ensures Dao.Valid(r.db)
    ensures r.selectedCategoryId == vm.selectedCategoryId
    ensures r.db.items == vm.db.items
    ensures Dao.HasCategory(vm.db, category.id) ==>
              forall c :: c in r.db.categories <==>
                            c == Category(category.id, category.name, !category.isSelected)
                            || (c in vm.db.categories && c.id != category.id)
    ensures !Dao.HasCategory(vm.db, category.id) ==> r == vm
  {
    vm.(db := Repo.UpdateCategory(vm.db, category.(isSelected := !category.isSelected)))
  }

  /**
   * The line exported for one item: "- ", the name, " (Quantity: ", the
   * quantity in decimal, then ")" and a line break. The text between the
   * fixed parts reads back as the quantity.
   */
  function ItemLine(item: ShoppingItem): (line: string)
    ensures "- " + item.name + " (Quantity: " <= line
    ensures var n := |"- " + item.name + " (Quantity: "|;
            && |line| >= n + 2
            && line[|line| - 2..] == ")\n"
            && line[n..|line| - 2] == Decimal.IntToString(item.quantity)
            && Decimal.ParseInt(line[n..|line| - 2]) == Some(item.quantity)
  {
    var head := "- " + item.name + " (Quantity: ";
    var digits := Decimal.IntToString(item.quantity);
    var line := head + digits + ")\n";
    assert line == head + (digits + ")\n");
    assert line[|head|..|line| - 2] == digits;
    Decimal.IntToStringRoundTrip(item.quantity);
    line
  }

  /** The lines of a list of items, one per item, in list order. */
  function ItemLines(items: seq<ShoppingItem>): (text: string)
    ensures text == "" <==> items == []
  {
    if |items| == 0 then "" else ItemLine(items[0]) + ItemLines(items[1..])
  }

  /** The section exported for one category: a header line, its items' lines, then a blank line. */
  function Section(category: Category, db: Dao.Db): (s: string)
    ensures s == "Category: " + category.name + "\n" + ItemLines(Repo.GetItemsByCategory(db, category.id)) + "\n"
    ensures "Category: " + category.name + "\n" <= s
    ensures s[|s| - 1] == '\n'
  {
    var header := "Category: " + category.name + "\n";
    var s := header + ItemLines(Repo.GetItemsByCategory(db, category.id)) + "\n";
    assert s == header + (ItemLines(Repo.GetItemsByCategory(db, category.id)) + "\n");
    s
  }

  /** What one category adds to the export: its section when it is marked, nothing otherwise. */
  function Contribution(category: Category, db: Dao.Db): (text: string)
    ensures text == "" <==> !category.isSelected
    ensures category.isSelected ==> text == Section(category, db)
  {
    if category.isSelected then Section(category, db) else ""
  }

  /** The sections of the marked categories of a snapshot, in snapshot order. */
  function Sections(snapshot: seq<Category>, db: Dao.Db): string
  {
    if |snapshot| == 0 then ""
    else Contribution(snapshot[0], db) + Sections(snapshot[1..], db)
  }

  /**
   * The share text over a snapshot of the categories table: one section per
   * category marked for sharing, in snapshot order, each with the items the
   * database holds for it when the text is built. It is empty exactly when
   * nothing in the snapshot is marked.
   */
  function ShareSelectedCategories(snapshot: seq<Category>, db: Dao.Db): (text: string)
    ensures text == "" <==> forall c :: c in snapshot ==> !c.isSelected
  {
    assert Sections(snapshot, db) == "" <==> forall c :: c in snapshot ==> !c.isSelected by {
      SectionsEmptyIff(snapshot, db);
    }
    Sections(snapshot, db)
  }

  lemma {:induction false} SectionsEmptyIff(snapshot: seq<Category>, db: Dao.Db)
    ensures Sections(snapshot, db) == "" <==> forall c :: c in snapshot ==> !c.isSelected
  {
    if |snapshot| > 0 {
      SectionsEmptyIff(snapshot[1..], db);
      assert forall c :: c in snapshot ==> c == snapshot[0] || c in snapshot[1..];
    }
  }

  /** The lines of two lists one after the other are the lines of the first followed by those of the second. */
  lemma {:induction false} ItemLinesAppend(a: seq<ShoppingItem>, b: seq<ShoppingItem>)
    ensures ItemLines(a + b) == ItemLines(a) + ItemLines(b)
  {
    if |a| == 0 {
      assert a + b == b;
    } else {
      assert (a + b)[0] == a[0];
      assert (a + b)[1..] == a[1..] + b;
      ItemLinesAppend(a[1..], b);
      ItemLinesCons(a + b, a[0], a[1..] + b);
      ItemLinesCons(a, a[0], a[1..]);
      AssociateAppend(ItemLine(a[0]), ItemLines(a[1..]), ItemLines(b));
    }
  }

  lemma ItemLinesCons(items: seq<ShoppingItem>, first: ShoppingItem, rest: seq<ShoppingItem>)
    requires |items| > 0 && items[0] == first && items[1..] == rest
    ensures ItemLines(items) == ItemLine(first) + ItemLines(rest)
  {
  }

  lemma AssociateAppend(x: string, y: string, z: string)
    ensures x + (y + z) == (x + y) + z
  {
  }

  /** A single item contributes exactly its own line. */
  lemma ItemLinesSingle(item: ShoppingItem)
    ensures ItemLines([item]) == ItemLine(item)
  {
    assert [item][1..] == [];
  }

  /** A single-category snapshot exports exactly that category's contribution. */
  lemma ShareSingle(category: Category, db: Dao.Db)
    ensures ShareSelectedCategories([category], db) == Contribution(category, db)
  {
    assert [category][1..] == [];
    assert Sections([category], db) == Contribution(category, db) + Sections([], db);
  }

  /** The toggle laws of the selection. */
  lemma SelectCategoryCases(vm: ViewModel, categoryId: int)
    ensures categoryId == Deselect ==> SelectCategory(vm, categoryId).selectedCategoryId.None?
    ensures vm.selectedCategoryId == Some(categoryId) ==> SelectCategory(vm, categoryId).selectedCategoryId.None?
    ensures categoryId != Deselect && vm.selectedCategoryId != Some(categoryId) ==>
              SelectCategory(vm, categoryId).selectedCategoryId == Some(categoryId)
  {
  }

  /** Selecting the same id twice returns to the start when it was selected, and otherwise clears the selection. */
  lemma SelectCategoryTwice(vm: ViewModel, categoryId: int)
    ensures SelectCategory(SelectCategory(vm, categoryId), categoryId) ==
              if categoryId != Deselect && vm.selectedCategoryId == Some(categoryId) then vm
              else vm.(selectedCategoryId := None)
  {
  }

  /** After switching to another category the derived list is exactly that category's items. */
  lemma SwitchSelectionShowsNewCategory(vm: ViewModel, categoryId: int)
    requires categoryId != Deselect && vm.selectedCategoryId != Some(categoryId)
    ensures ItemsInSelectedCategory(SelectCategory(vm, categoryId)) == Repo.GetItemsByCategory(vm.db, categoryId)
    ensures forall x :: x in ItemsInSelectedCategory(SelectCategory(vm, categoryId)) ==> x.categoryId == categoryId
  {
  }

  /** Toggling again with the category as it is now stored restores the database. */
  lemma ToggleTwiceRestores(vm: ViewModel, category: Category)
    requires Dao.Valid(vm.db)
    requires category in vm.db.categories
    ensures ToggleCategorySelection(ToggleCategorySelection(vm, category), category.(isSelected := !category.isSelected)) == vm
  {
    var flipped := category.(isSelected := !category.isSelected);
    var once := ToggleCategorySelection(vm, category);
    var twice := ToggleCategorySelection(once, flipped);
    assert Dao.HasCategory(vm.db, category.id);
    assert flipped in once.db.categories;
    forall c ensures c in twice.db.categories <==> c in vm.db.categories {
      assert c in vm.db.categories && c.id == category.id ==> c == category;
    }
    Tables.AscendingUnique(twice.db.categories, vm.db.categories, CategoryKey);
  }

  /** Toggling twice from the same stale snapshot writes the same row twice: the second toggle changes nothing. */
  lemma ToggleStaleSnapshotTwice(vm: ViewModel, category: Category)
    requires Dao.Valid(vm.db)
    ensures ToggleCategorySelection(ToggleCategorySelection(vm, category), category) == ToggleCategorySelection(vm, category)
  {
  }

  /** Adding an item to a stored category, adding a category, or toggling one keeps every item's category present. */
  lemma CommandsKeepNoOrphans(vm: ViewModel, name: string, categoryId: int, quantity: int, category: Category)
    requires Dao.Valid(vm.db) && Repo.NoOrphans(vm.db)
    ensures Dao.HasCategory(vm.db, categoryId) ==> Repo.NoOrphans(AddItem(vm, name, categoryId, quantity).db)
    ensures Repo.NoOrphans(AddCategory(vm, name).db)
    ensures Repo.NoOrphans(ToggleCategorySelection(vm, category).db)
  {
  }

  /**
   * The category of a new item is not checked: an item added under an id no
   * category has is stored, yet no stored category lists it.
   */
  lemma DanglingItemIsStoredButNeverListed(vm: ViewModel, name: string, categoryId: int, quantity: int)
    requires Dao.Valid(vm.db) && !Dao.HasCategory(vm.db, categoryId)
    ensures var r := AddItem(vm, name, categoryId, quantity);
            && !Repo.NoOrphans(r.db)
            && forall c :: c in r.db.categories ==>
                 ShoppingItem(r.db.itemSeq, name, false, categoryId, quantity) !in Repo.GetItemsByCategory(r.db, c.id)
  {
  }

  /** The export of two snapshots one after the other is the concatenation of their exports. */
  lemma {:induction false} ShareAppend(a: seq<Category>, b: seq<Category>, db: Dao.Db)
    ensures ShareSelectedCategories(a + b, db) == ShareSelectedCategories(a, db) + ShareSelectedCategories(b, db)
  {
    SectionsAppend(a, b, db);
  }

  lemma {:induction false} SectionsAppend(a: seq<Category>, b: seq<Category>, db: Dao.Db)
    ensures Sections(a + b, db) == Sections(a, db) + Sections(b, db)
  {
    if |a| == 0 {
      assert a + b == b;
    } else {
      assert (a + b)[0] == a[0];
      assert (a + b)[1..] == a[1..] + b;
      var head := Contribution(a[0], db);
      calc {
        Sections(a + b, db);
        { SectionsCons(a + b, a[0], a[1..] + b, db); }
        head + Sections(a[1..] + b, db);
        { SectionsAppend(a[1..], b, db); }
        head + (Sections(a[1..], db) + Sections(b, db));
        { AssociateAppend(head, Sections(a[1..], db), Sections(b, db)); }
        (head + Sections(a[1..], db)) + Sections(b, db);
        { SectionsCons(a, a[0], a[1..], db); }
        Sections(a, db) + Sections(b, db);
      }
    }
  }

  lemma SectionsCons(snapshot: seq<Category>, first: Category, rest: seq<Category>, db: Dao.Db)
    requires |snapshot| > 0 && snapshot[0] == first && snapshot[1..] == rest
    ensures Sections(snapshot, db) == Contribution(first, db) + Sections(rest, db)
  {
  }

  /** Unselected categories contribute nothing: the export equals the export of the selected categories alone. */
  lemma {:induction false} ShareOnlySelected(snapshot: seq<Category>, db: Dao.Db)
    ensures ShareSelectedCategories(snapshot, db) ==
              ShareSelectedCategories(Tables.Select(snapshot, (c: Category) => c.isSelected), db)
  {
    SectionsOnlySelected(snapshot, db);
  }

  lemma {:induction false} SectionsOnlySelected(snapshot: seq<Category>, db: Dao.Db)
    ensures Sections(snapshot, db) == Sections(Tables.Select(snapshot, (c: Category) => c.isSelected), db)
  {
    if |snapshot| > 0 {
      SectionsOnlySelected(snapshot[1..], db);
    }
  }

  /** The example store: "Produce" (marked) holds Apple x3 and Banana x2, "Dairy" (not marked) holds Milk x1. */
  function ExampleDb(): Dao.Db
  {
    Dao.Db([ShoppingItem(1, "Apple", false, 1, 3),
            ShoppingItem(2, "Banana", false, 1, 2),
            ShoppingItem(3, "Milk", false, 2, 1)],
           [Category(1, "Produce", true), Category(2, "Dairy", false)], 3, 2)
  }

  lemma ExampleProduceItems()
    ensures Repo.GetItemsByCategory(ExampleDb(), 1) ==
              [ShoppingItem(1, "Apple", false, 1, 3), ShoppingItem(2, "Banana", false, 1, 2)]
  {
  }

  lemma ExampleQuantityTexts()
    ensures Decimal.IntToString(3) == "3" && Decimal.IntToString(2) == "2"
  {
  }

  /** The line of one item whose quantity renders as the given digits. */
  lemma ItemLineText(item: ShoppingItem, digits: string)
    requires Decimal.IntToString(item.quantity) == digits
    ensures ItemLine(item) == "- " + item.name + " (Quantity: " + digits + ")\n"
  {
  }

  lemma ExampleAppleLine()
    ensures ItemLine(ShoppingItem(1, "Apple", false, 1, 3)) == "- Apple (Quantity: 3)\n"
  {
    ExampleQuantityTexts();
    ItemLineText(ShoppingItem(1, "Apple", false, 1, 3), "3");
    assert "- " + "Apple" + " (Quantity: " + "3" + ")\n" == "- Apple (Quantity: 3)\n";
  }

  lemma ExampleBananaLine()
    ensures ItemLine(ShoppingItem(2, "Banana", false, 1, 2)) == "- Banana (Quantity: 2)\n"
  {
    ExampleQuantityTexts();
    ItemLineText(ShoppingItem(2, "Banana", false, 1, 2), "2");
    assert "- " + "Banana" + " (Quantity: " + "2" + ")\n" == "- Banana (Quantity: 2)\n";
  }

  lemma ExampleProduceLines()
    ensures ItemLines([ShoppingItem(1, "Apple", false, 1, 3), ShoppingItem(2, "Banana", false, 1, 2)]) ==
              "- Apple (Quantity: 3)\n" + "- Banana (Quantity: 2)\n"
  {
    var apple := ShoppingItem(1, "Apple", false, 1, 3);
    var banana := ShoppingItem(2, "Banana", false, 1, 2);
    ExampleAppleLine();
    ExampleBananaLine();
    assert [apple, banana][1..] == [banana];
  }

  lemma ExampleProduceSection()
    ensures Section(Category(1, "Produce", true), ExampleDb()) ==
              "Category: Produce\n" + ("- Apple (Quantity: 3)\n" + "- Banana (Quantity: 2)\n") + "\n"
  {
    var produce := Category(1, "Produce", true);
    var header := "Category: " + produce.name + "\n";
    assert header == "Category: Produce\n";
    ExampleProduceItems();
    ExampleProduceLines();
    assert Section(produce, ExampleDb()) == header + ItemLines(Repo.GetItemsByCategory(ExampleDb(), 1)) + "\n";
  }

  /** The worked export of the example store: only the marked category appears. */
  lemma ShareExample()
    ensures ShareSelectedCategories(ExampleDb().categories, ExampleDb()) ==
              "Category: Produce\n" + ("- Apple (Quantity: 3)\n" + "- Banana (Quantity: 2)\n") + "\n"
  {
    var db := ExampleDb();
    var produce := Category(1, "Produce", true);
    var dairy := Category(2, "Dairy", false);
    assert db.categories == [produce, dairy];
    ExampleProduceSection();
    assert Sections([dairy], db) == "";
    assert [produce, dairy][1..] == [dairy];
    assert Sections([produce, dairy], db) == Section(produce, db) + Sections([dairy], db);
  }
}

=== FILE: wrappers.dfy ===
/** The nullable value of the model: Kotlin's `T?` becomes `Option<T>`. */
module Wrappers {

  datatype Option<+T> = None | Some(value: T)
}
